=== FILE: README.md ===
# Excalidraw embeds in an exported web page

This project models the part of the obsidian-webpage-export frontend that shows embedded
Excalidraw drawings. It covers two pieces:

- `ExcalidrawRenderer` (`src/frontend/main/excalidraw.ts`) handles one embed container. It finds
  the drawing's path in the container's attributes, resolves that path against the current
  document, and picks a reader by file extension. The readers take the scene JSON out of a plain
  JSON file, an HTML export or a markdown note, each trying its candidates in a fixed order.
  The result is then shown as an image, as inline SVG, as a read-only Excalidraw canvas, or as an
  error panel.
- `ExcalidrawLoader` (`src/frontend/main/excalidraw-loader.ts`) loads the Excalidraw library once
  per page. A `load()` that arrives while a load is in flight joins it. After a failed load,
  the next `load()` starts a fresh run. As written, that run cannot succeed in fetching the
  script again (see "## Findings").

Modules, one per concern:

- `Wrappers`: `Option` (JavaScript `null`) and `Result` (a value, or the error thrown).
- `JsStrings`: the JavaScript string operations the code relies on (`startsWith`, `endsWith`,
  `trim`, `split` and `join` on `/`), and string truthiness. The code does not call
  `lastIndexOf`. `LastIndexOf` is the reference definition that states what the split, slice and
  join of the document path compute.
- `Failures`: every error thrown, with its exact message. It also holds the `HTML_WITH_SVG:`
  signal, which carries an SVG out of the HTML reader inside an error message.
- `Paths`: `resolvePath`.
- `Sources`: the attribute priority chain of `loadExcalidrawData`. A reference definition (the
  first step of a six-step list that yields a usable value) sits beside the step-by-step method
  `DiscoverSource`, which is proved equal to it.
- `Formats`: dispatch by extension, and the HTML and markdown readers. JSON.parse, the regular
  expressions and the URL parser are functions in a `Host` value. The model does not
  re-implement them.
- `Loader`: the class `ExcalidrawLoader`. Its fields `loaded`, `loading` and `loadPromise` stand
  for the static fields. A counter `libraryRuns` names each `loadLibrary` run, and that name is
  the run's promise. A field `page` holds the stylesheet and script tags in the document, which
  `loadStylesheet` and `loadScript` look up with `querySelector`.
- `Renderer`: the class `ExcalidrawRenderer`. `LoadOutcome` is the reference definition of
  `loadExcalidrawData`, built from the pieces above.

A failed library load clears `loading`, and the next `load()` starts a fresh run.
`Loader.RetryFromAnyState` proves this for every state, and `Loader.RetryAfterFailure` plays it
through on a fresh page. As written, a tag whose load failed stays in the document. The fresh
run then finds it and resolves at once (`Loader.FailedScriptTagMasksRetry`). The loader class
has a flag, `removeFailedTag`, and runs `RunLibrary` with it. When the flag is false, the class is
the code as written. `Loader.DeadScriptTagLocksOut` and `Renderer.ScriptFailureLocksOut` follow
the failure through `load()` and `render` on that code. When the flag is true, the class runs the
correction, `LoadLibrary`, which removes a failed tag, and the retry asks for the script again
(`Loader.RetryRequestsFailedScript`).

Two details of the chain are modelled as the code has them. First, `data-excalidraw-source`,
`filesource` and the inner img's attributes are never checked for `blob:`. A blob URL from one
of them is rejected later by `resolvePath` with "Cannot resolve blob URL". Second, the data-href
step takes `a || b` before it filters out `blob:`. A blob data-href on the container therefore
hides the data-href of the enclosing `.internal-embed`.

## Model

| member | source | states |
|---|---|---|
| `JsStrings.SkipForward` | src/frontend/main/excalidraw.ts:159 | where `trim` stops at the front: every character it passes is white space, and it stops at the end of the text or at a character that is not white space |
| `JsStrings.SkipBackward` | src/frontend/main/excalidraw.ts:177 | where `trim` stops at the back: every character it passes is white space, and it stops at its lower bound or after a character that is not white space |
| `JsStrings.Trim` | src/frontend/main/excalidraw.ts:177 | the result of `trim()` is empty, or neither starts nor ends with white space |
| `JsStrings.TrimKeepsMiddle` | src/frontend/main/excalidraw.ts:177 | `trim()` returns a contiguous middle slice of the text, with only white space cut from either end |
| `JsStrings.LooksLikeMarkupIff` | src/frontend/main/excalidraw.ts:136 | `text.trim().startsWith('<')` holds exactly when some `<` in the text is preceded only by white space |
| `JsStrings.LastIndexOf` | src/frontend/main/excalidraw.ts:267 | the result is -1 exactly when the character does not occur; otherwise it is the position of that character, and no later position holds it |
| `JsStrings.Split` | src/frontend/main/excalidraw.ts:267 | `split('/')` yields at least one part, and no part contains the separator |
| `JsStrings.JoinSplit` | src/frontend/main/excalidraw.ts:267 | joining the parts of a split on the same separator gives back the original string |
| `JsStrings.SplitWithoutSeparator` | src/frontend/main/excalidraw.ts:267 | a string without the separator splits into itself alone |
| `JsStrings.SplitAtSeparator` | src/frontend/main/excalidraw.ts:267 | splitting `a + "/" + b` gives the parts of `a` followed by the parts of `b` |
| `Failures.SvgFromMessage` | src/frontend/main/excalidraw.ts:40-41 | a message yields SVG content exactly when it starts with `HTML_WITH_SVG:`, and the message is then that prefix followed by the content |
| `Failures.SvgSignalRoundTrip` | src/frontend/main/excalidraw.ts:40-44 | for every string `s`, stripping the prefix from `'HTML_WITH_SVG:' + s` recovers exactly `s` |
| `Failures.OnlySignalCarriesPrefix` | src/frontend/main/excalidraw.ts:40 | no error message the code writes itself starts with the prefix, except the SVG signal; only a SyntaxError of JSON.parse or a TypeError of the URL constructor, whose texts the engine writes, are not covered |
| `Paths.BasePathIsDirectory` | src/frontend/main/excalidraw.ts:266-267 | `split('/').slice(0, -1).join('/')` is everything before the last `/`, and is empty when there is no `/` |
| `Paths.ResolvePath` | src/frontend/main/excalidraw.ts:251-288 | it fails exactly when the source starts with `blob:` ("Cannot resolve blob URL") or when it is `./` or `../` relative and the URL constructor throws (that TypeError's message, for example for the invalid base an opaque origin `"null"` gives); `http://` and `https://` sources come back unchanged; a source starting with `/` comes back with exactly that first character removed; otherwise a `./` or `../` source is the parsed pathname without its leading `/` |
| `Paths.ResolveBareBesideDocument` | src/frontend/main/excalidraw.ts:283-287 | any other source becomes `basePath + "/" + src`, or stays unchanged when the base path is empty; a bare file name then lies in the same directory as the document and is the last segment of the result |
| `Paths.DirectoryUrlEndsWithSlash` | src/frontend/main/excalidraw.ts:272 | the base URL given to the URL parser starts with the origin and a `/`, and ends in `/` |
| `Sources.FirstTruthy` | src/frontend/main/excalidraw.ts:77-78 | `a \|\| b` over strings that may be null yields the first non-empty candidate, and is falsy only when every candidate is falsy |
| `Sources.DiscoverSource` | src/frontend/main/excalidraw.ts:57-105 | the step-by-step reassignment of `src` picks exactly the reference choice `ChosenSource`; when nothing is chosen it throws "Excalidraw source not found in embed element" |
| `Sources.FirstAcceptedIsEarliest` | src/frontend/main/excalidraw.ts:57-105 | the chain yields `v` exactly when `v` is the value of some step and every earlier step yielded nothing |
| `Sources.ChosenSourcePriority` | src/frontend/main/excalidraw.ts:57-63 | a chosen source is never empty; a non-empty `data-excalidraw-source` always wins, and after it a non-empty `filesource` |
| `Sources.BlobOnlyFromUnfilteredAttributes` | src/frontend/main/excalidraw.ts:65-101 | a chosen source can start with `blob:` only if it came from the container's or the inner img's `data-excalidraw-source` or `filesource` |
| `Sources.BlobDataHrefHidesEmbedDataHref` | src/frontend/main/excalidraw.ts:95-101 | when no earlier step yields a source and the container's data-href is a blob URL, no source is found, whatever the enclosing embed's data-href holds |
| `Formats.ExtractFromHtml` | src/frontend/main/excalidraw.ts:187-220 | script-tag JSON comes first, then comment JSON; a later pattern matters only if every earlier one failed to match or to parse; the SVG signal is raised exactly when both JSON patterns fail and an SVG matches, and it carries that match; otherwise the "Could not extract ... HTML file" error |
| `Formats.ExtractFromMarkdown` | src/frontend/main/excalidraw.ts:157-181 | text whose trimmed form starts with `<` goes to the HTML reader; otherwise a ```` ```json ```` block (if that pattern matches) or else a plain fenced block is parsed first, then the whole trimmed text; if neither parses, the "Could not extract ... markdown file" error |
| `Formats.DispatchByExtension` | src/frontend/main/excalidraw.ts:113-146 | each branch is taken exactly when the path ends in its extension (`.svg` image, `.html`, `.md`, `.excalidraw`), and default JSON exactly when none matches; the extensions exclude each other, so the order of the tests does not change the outcome |
| `Formats.ReadContent` | src/frontend/main/excalidraw.ts:127-146 | each format goes to its reader; an `.excalidraw` file goes to the HTML reader exactly when its first character that is not white space is `<`, and to `JSON.parse` otherwise |
| `Loader.RunLibrary` | src/frontend/main/excalidraw-loader.ts:35-80 | whether or not a failed tag is removed: a tag already in the page resolves at once and is not asked for again; the stylesheet is asked for first, and the script only once the stylesheet has resolved; the run succeeds exactly when each asset is in the page already or loads; otherwise it rejects with "Failed to load stylesheet: url" or "Failed to load script: url" |
| `Loader.LoadLibrary` | src/frontend/main/excalidraw-loader.ts:35-80 | a tag already in the page resolves at once and is not asked for again; the stylesheet is asked for first, and the script only once the stylesheet has resolved; the run succeeds exactly when each asset is in the page or loads; otherwise it rejects with the stylesheet error or the script error; afterwards the page holds exactly the tags that loaded (a failed tag is removed, the correction recorded under Findings) |
| `Loader.LoadLibraryAsWritten` | src/frontend/main/excalidraw-loader.ts:35-80 | as written, the page afterwards holds every tag the run appended, loaded or failed; the run succeeds exactly when each asset is in the page already or loads (order and errors as for `RunLibrary`, which it is) |
| `Loader.FailedScriptTagMasksRetry` | src/frontend/main/excalidraw-loader.ts:48-63 | as written, after a run whose script fails, the next run asks for nothing and resolves, whatever the network does, although the script never ran |
| `Loader.RetryRequestsFailedScript` | src/frontend/main/excalidraw-loader.ts:48-63 | with the failed tag removed, the run after a script failure asks for the script, and only the script, again, and succeeds exactly when it loads |
| `Loader.ExcalidrawLoader.constructor` | src/frontend/main/excalidraw-loader.ts:6-8 | the loader starts not loaded, not loading, with no promise, on the document's current tags; a script tag already there counts as having run |
| `Loader.ExcalidrawLoader.Load` | src/frontend/main/excalidraw-loader.ts:14-22 | when `loaded`, it returns at once and changes nothing; while a load is in flight, it returns that same promise and starts nothing; otherwise it starts exactly one new `loadLibrary` run and sets `loading`; `loaded` is never cleared |
| `Loader.ExcalidrawLoader.Settle` | src/frontend/main/excalidraw-loader.ts:24-32 | after the awaited run, which keeps or removes a failed tag as the loader's flag says, the run's tags are in the page; `loaded` is true exactly when the run succeeded; `loading` is false; the run's error is re-thrown; `loaded` is never cleared; the script has run once a run asked for it and succeeded |
| `Loader.IsLoadedAfterRun` | src/frontend/main/excalidraw-loader.ts:85-88 | `isLoaded()` can hold only once `load()` has started a `loadLibrary` run and no run is in flight; the promise kept is the latest run's; the library's stylesheet and script tags are in the page; only when failed tags are removed does that mean the script has run |
| `Loader.RetryFromAnyState` | src/frontend/main/excalidraw-loader.ts:14-33 | from any state where the library is not loaded, `load()` starts a run or joins the one in flight; if that run fails, its error is re-thrown and the next `load()` starts a fresh run numbered one past it; if it succeeds, the next `load()` returns at once |
| `Loader.RetryAfterFailure` | src/frontend/main/excalidraw-loader.ts:14-33 | with failed tags removed, on a page without the library's tags, a second `load()` during a run joins run 1; the run's script failure is re-thrown; a later `load()` starts run 2; once that succeeds, `load()` returns at once; two runs in all |
| `Loader.DeadScriptTagLocksOut` | src/frontend/main/excalidraw-loader.ts:14-63 | as written, on a page where the script has not run: the first `load()` starts a run whose script fails, and its error is re-thrown; the next `load()` starts one more run, which resolves whatever the network does; `loaded` is then set for good and `load()` returns at once, though the script never ran |
| `Renderer.BlobSourceNeverLoaded` | src/frontend/main/excalidraw.ts:251-260 | a `blob:` source that gets through the chain ends in "Cannot resolve blob URL": it is neither fetched nor shown |
| `Renderer.SvgPathIgnoresContent` | src/frontend/main/excalidraw.ts:112-116 | a path ending in `.svg` is shown as an image whatever the file holds, so the file is never read |
| `Renderer.SvgSignalSource` | src/frontend/main/excalidraw.ts:211-216 | the SVG signal comes only from a file that reaches the HTML reader (an `.html` file, or an `.md` or `.excalidraw` file whose first character that is not white space is `<`) in which neither JSON pattern parsed, and it carries exactly the SVG match |
| `Renderer.ExcalidrawRenderer.constructor` | src/frontend/main/excalidraw.ts:15-18 | a new renderer keeps its document and container and holds no data |
| `Renderer.ExcalidrawRenderer.LoadAsSvgImage` | src/frontend/main/excalidraw.ts:225-246 | the container shows an image of the path, takes the SVG wrapper class, and the data becomes null |
| `Renderer.ExcalidrawRenderer.ShowError` | src/frontend/main/excalidraw.ts:398-411 | the container shows the error panel with the message and keeps its class |
| `Renderer.ExcalidrawRenderer.LoadExcalidrawData` | src/frontend/main/excalidraw.ts:56-152 | the state after the call matches the reference `LoadOutcome`. The `.svg` branch shows the image and sets the data to null. A value that is not a non-null object is assigned and then raises "Invalid Excalidraw data format". Every other error leaves the data and the container as they were |
| `Renderer.ExcalidrawRenderer.Catch` | src/frontend/main/excalidraw.ts:38-50 | a message starting with `HTML_WITH_SVG:` puts the rest of it into the container as SVG; any other message becomes the error panel |
| `Renderer.ExcalidrawRenderer.RenderExcalidraw` | src/frontend/main/excalidraw.ts:293-323 | with the library not loaded, it throws "Excalidraw library not loaded" and changes nothing; otherwise it puts the canvas host in place, then mounts the scene when the global has its component, and throws "Excalidraw component not found" when it does not |
| `Renderer.ExcalidrawRenderer.ShowScene` | src/frontend/main/excalidraw.ts:34-50 | with a scene in hand, `load()` and `renderExcalidraw()` leave the data as it is; a failed library run shows its error, and otherwise the canvas is mounted or the error of `renderExcalidraw` is shown; the loader's page and run count move as one `load()` moves them |
| `Renderer.ExcalidrawRenderer.Render` | src/frontend/main/excalidraw.ts:23-51 | an `.svg` image, an SVG signal, an invalid value and every error before the library step leave the loader untouched, so the library is loaded only for a valid scene. The SVG signal shows the matched SVG verbatim. The data field ends null after an `.svg` image, holds the parsed value after an invalid value or a scene, and is untouched after any other error. A scene ends mounted, or in the error panel of whichever step failed. At most one `loadLibrary` run is added, and only when none was in flight |
| `Renderer.ScriptFailureLocksOut` | src/frontend/main/excalidraw.ts:23-51 | as written, with the global `Excalidraw` never defined: a scene's first render shows the script's load error; the second and third show "Excalidraw library not loaded"; the third does so even when the network works, and it starts no run |

## Left out

- Fetching. `fetch`, `response.ok`, the status error "Failed to load Excalidraw file" and the unused content-type header (excalidraw.ts:119-125) are network I/O. The fetched text is a parameter, and the fetch is taken to succeed.
- JSON.parse, the five regular expressions and the browser's URL parser are foreign code. They appear as functions in `Host` and are not re-implemented. The `./` and `../` branch of `resolvePath` is therefore stated only up to the URL parser, which may return a pathname or throw a TypeError with a message.
- `loadReact`, `loadReactDOM` and the renderer's own `loadScript` (excalidraw.ts:353-393) inject CDN scripts. They are taken to succeed, so their error "Failed to load: url" is not modelled.
- The loader's `loadScript` and `loadStylesheet` (excalidraw-loader.ts:48-80) inject tags into the page. The tags already in the document are the set `page`. Whether a newly appended tag loads is a boolean parameter of `LoadLibrary`. The tag attributes `async` and `rel` are left out.
- DOM and React details: element styles, the `alt` text, the `excalidrawEl` field, the HTML template of the error panel, and the props handed to the Excalidraw component (element, appState and files defaults; view mode). The later `onerror` handler of the SVG image runs after `render` has returned, so it is also left out.
- Promise timing and concurrency. The loader's steps are discrete events. All of a run's tags are appended when the run settles; nothing else touches them in between. In `Render`, awaiting a joined load is modelled as that in-flight run settling before the caller continues. `Loader.ExcalidrawLoader.Settle` requires `loading`, because only a started run has a continuation.
- `typeof window !== 'undefined'` in `isLoaded` is folded into the single flag for a defined global `Excalidraw`.
- Console logging.
- JavaScript strings are UTF-16 code units. Here a character is a Unicode scalar value, and `trim` removes the ECMAScript white space and line terminator characters.

## Findings

| source | as written | input that shows it | evidently intended | confidence | as-written member | corrected member |
|---|---|---|---|---|---|---|
| src/frontend/main/excalidraw-loader.ts:48-80 | `onerror` rejects but leaves the failed `<script>` (or `<link>`) tag in the document. The next `loadScript` finds it with `querySelector` and resolves at once. The retried `load()` sets `loaded` for good although the script never ran, and no later `load()` starts a run (`Loader.DeadScriptTagLocksOut`). With `Excalidraw` undefined, every later render shows "Excalidraw library not loaded" (`Renderer.ScriptFailureLocksOut`) | a page without the library's tags; the first `load()` fails on the script (for example the CDN is unreachable); any later `load()` | a failed tag does not count as loaded (it is removed, or not looked up), so a retry asks for the asset again | not executed; high | `Loader.FailedScriptTagMasksRetry` | `Loader.RetryRequestsFailedScript` |

=== FILE: failures.dfy ===
/**
 * The errors the renderer and the loader throw, with their exact messages, and the
 * `HTML_WITH_SVG:` signal: an SVG found in an HTML export travels to `render` inside an
 * error message and is recovered there by stripping the prefix.
 */
module Failures {
  import opened Wrappers
  import opened JsStrings

  datatype Failure =
    | SourceNotFound              // no usable attribute on the embed element
    | BlobUrl                     // resolvePath was handed a blob: URL
    | InvalidFormat               // the parsed value is not a non-null object
    | MarkdownUnreadable          // no parse of a markdown file succeeded
    | HtmlUnreadable              // an HTML file held neither scene JSON nor an SVG
    | HtmlWithSvg(svg: string)    // the signal: an HTML file held only an SVG
    | JsonSyntax(message: string) // a SyntaxError of JSON.parse; its message is the engine's
    | UrlTypeError(message: string) // a TypeError of the URL constructor; its message is the engine's
    | StylesheetFailed(url: string)
    | ScriptFailed(url: string)
    | LibraryNotLoaded
    | ComponentNotFound

  /** A failure whose message the JavaScript engine writes, not this code. */
  predicate FromEngine(f: Failure) {
    f.JsonSyntax? || f.UrlTypeError?
  }

  const SvgSignalPrefix: string := "HTML_WITH_SVG:"

  /** The `message` of the Error object thrown for each failure. */
  function Message(f: Failure): string {
    match f
    case SourceNotFound => "Excalidraw source not found in embed element"
    case BlobUrl => "Cannot resolve blob URL"
    case InvalidFormat => "Invalid Excalidraw data format"
    // The two long messages are written in pieces the verifier can index.
    case MarkdownUnreadable => "Could not extract Excalidraw data " + "from markdown file"
    case HtmlUnreadable =>
      "Could not extract Excalidraw data " + "from HTML file. "
      + "The file may contain only SVG export without scene data."
    case HtmlWithSvg(svg) => SvgSignalPrefix + svg
    case JsonSyntax(message) => message
    case UrlTypeError(message) => message
    case StylesheetFailed(url) => "Failed to load stylesheet: " + url
    case ScriptFailed(url) => "Failed to load script: " + url
    case LibraryNotLoaded => "Excalidraw library not loaded"
    case ComponentNotFound => "Excalidraw component not found"
  }

  /** What `render`'s catch block reads out of an error message: the text after the prefix, if any. */
  function SvgFromMessage(message: string): (svg: Option<string>)
    ensures svg.Some? <==> StartsWith(message, SvgSignalPrefix)
    ensures svg.Some? ==> message == SvgSignalPrefix + svg.value
  {
    if StartsWith(message, SvgSignalPrefix) then Some(message[|SvgSignalPrefix|..]) else None
  }

  /** The signal round-trips: the SVG put behind the prefix is exactly the SVG taken out. */
  lemma SvgSignalRoundTrip(svg: string)
    ensures SvgFromMessage(Message(HtmlWithSvg(svg))) == Some(svg)
  {
    assert (SvgSignalPrefix + svg)[..|SvgSignalPrefix|] == SvgSignalPrefix;
    assert (SvgSignalPrefix + svg)[|SvgSignalPrefix|..] == svg;
  }

  /** No message the code writes itself, other than the SVG signal, starts with `H`. */
  lemma MessageFirstChar(f: Failure)
    requires !FromEngine(f) && !f.HtmlWithSvg?
    ensures |Message(f)| > 0 && Message(f)[0] != 'H'
  {
    var m := Message(f);
    match f
    case SourceNotFound => assert m == "Excalidraw source not found in embed element"; assert m[0] == 'E';
    case BlobUrl => assert m[0] == 'C';
    case InvalidFormat => assert m[0] == 'I';
    case MarkdownUnreadable => assert m[0] == 'C';
    case HtmlUnreadable => assert m[0] == 'C';
    case StylesheetFailed(url) => assert m[0] == 'F';
    case ScriptFailed(url) => assert m[0] == 'F';
    case LibraryNotLoaded => assert m[0] == 'E';
    case ComponentNotFound => assert m[0] == 'E';
  }

  /**
   * No message of the code's own making is mistaken for the signal: apart from a SyntaxError or
   * a TypeError, whose text the JavaScript engine chooses, only `HtmlWithSvg` carries the prefix.
   */
  lemma OnlySignalCarriesPrefix(f: Failure)
    requires !FromEngine(f)
    ensures SvgFromMessage(Message(f)).Some? <==> f.HtmlWithSvg?
  {
    if f.HtmlWithSvg? {
      SvgSignalRoundTrip(f.svg);
    } else {
      var m := Message(f);
      MessageFirstChar(f);
      if StartsWith(m, SvgSignalPrefix) { StartsWithFirst(m, SvgSignalPrefix); }
    }
  }
}

=== FILE: formats.dfy ===
/**
 * Reading a fetched drawing file: the choice of reader by file extension, and the two
 * extractors that dig the scene JSON out of an HTML export or a markdown note, each trying
 * its candidates in a fixed fallback order. JSON.parse and the regular expressions are the
 * host's, given as functions in `Host`.
 */
module Formats {
  import opened Wrappers
  import opened JsStrings
  import opened Failures

  /** The value `JSON.parse` produces, seen only as far as the renderer looks at it. */
  datatype JsValue =
    | JsNull
    | JsObject(id: nat)                  // an object or an array
    | JsScalar(id: nat, truthy: bool)    // a number, string or boolean

  /** The scene check of loadExcalidrawData: `data` is truthy and `typeof data === 'object'`. */
  predicate IsScene(v: JsValue) {
    v.JsObject?
  }

  /**
   * The foreign behaviour the renderer calls into. Each regex function gives the text the
   * source reads from its match (capture group 1, or the whole match for `svgElement`),
   * `None` when the regex does not match.
   */
  datatype Host = Host(
    parse: string -> Option<JsValue>,       // JSON.parse; None when it throws
    syntaxMessage: string -> string,        // the message of the SyntaxError JSON.parse throws
    jsonFence: string -> Option<string>,    // /```json\n([\s\S]*?)\n```/
    plainFence: string -> Option<string>,   // /```\n([\s\S]*?)\n```/
    scriptJson: string -> Option<string>,   // /<script[^>]*>\s*(?:const|var|let)\s+\w+\s*=\s*({[\s\S]*?})\s*;?\s*<\/script>/i
    commentJson: string -> Option<string>,  // /<!--\s*({[\s\S]*?})\s*-->/
    svgElement: string -> Option<string>,   // /<svg[\s\S]*?<\/svg>/i
    urlPathname: (string, string) -> Result<string, string>) // new URL(src, base).pathname; Err(message) when it throws

  /** `if (match && match[1]) { try { return JSON.parse(match[1]) } catch {} }`: the value, if any. */
  function ParseCandidate(capture: Option<string>, host: Host): Option<JsValue> {
    if Truthy(capture) then host.parse(capture.value) else None
  }

  /** An uncaught `JSON.parse(text)`. */
  function ParseJson(text: string, host: Host): Result<JsValue, Failure> {
    match host.parse(text)
    case Some(v) => Ok(v)
    case None => Err(JsonSyntax(host.syntaxMessage(text)))
  }

  /**
   * `extractExcalidrawFromHTML`: the script-tag JSON, else the comment JSON, else the SVG as
   * the `HTML_WITH_SVG:` signal, else an error. A later pattern is read only when every earlier
   * one did not match or did not parse.
   */
  function ExtractFromHtml(html: string, host: Host): (r: Result<JsValue, Failure>)
    ensures var script := ParseCandidate(host.scriptJson(html), host);
            var comment := ParseCandidate(host.commentJson(html), host);
            && (r.Ok? <==> script.Some? || comment.Some?)
            && (script.Some? ==> r == Ok(script.value))
            && (script.None? && comment.Some? ==> r == Ok(comment.value))
            && (r.Err? ==> r.error.HtmlWithSvg? || r.error == HtmlUnreadable)
            && (forall svg :: r == Err(HtmlWithSvg(svg)) <==>
                  script.None? && comment.None? && host.svgElement(html) == Some(svg))
  {
    var script := ParseCandidate(host.scriptJson(html), host);
    if script.Some? then Ok(script.value)
    else
      var comment := ParseCandidate(host.commentJson(html), host);
      if comment.Some? then Ok(comment.value)
      else if host.svgElement(html).Some? then Err(HtmlWithSvg(host.svgElement(html).value))
      else Err(HtmlUnreadable)
  }

  /** The fenced block the markdown reader tries: a ```json block if one matches, else a plain one. */
  function FencedBlock(markdown: string, host: Host): Option<string> {
    if host.jsonFence(markdown).Some? then host.jsonFence(markdown) else host.plainFence(markdown)
  }

  /**
   * `extractExcalidrawFromMarkdown`: HTML content goes to the HTML reader; otherwise the
   * fenced block, else the whole trimmed text; when neither parses, an error.
   */
  function ExtractFromMarkdown(markdown: string, host: Host): (r: Result<JsValue, Failure>)
    ensures LooksLikeMarkup(markdown) ==> r == ExtractFromHtml(markdown, host)
    ensures !LooksLikeMarkup(markdown) ==>
      var block := ParseCandidate(FencedBlock(markdown, host), host);
      var whole := host.parse(Trim(markdown));
      && (r.Ok? <==> block.Some? || whole.Some?)
      && (block.Some? ==> r == Ok(block.value))
      && (block.None? && whole.Some? ==> r == Ok(whole.value))
      && (r.Err? ==> r.error == MarkdownUnreadable)
  {
    if LooksLikeMarkup(markdown) then ExtractFromHtml(markdown, host)
    else
      var block := ParseCandidate(FencedBlock(markdown, host), host);
      if block.Some? then Ok(block.value)
      else
        match host.parse(Trim(markdown))
        case Some(v) => Ok(v)
        case None => Err(MarkdownUnreadable)
  }

  /** How a fetched file is read. */
  datatype Format = HtmlExport | MarkdownNote | ExcalidrawFile | PlainJson

  /** What loadExcalidrawData does with a resolved path: show an SVG as an image, or fetch and read. */
  datatype Dispatch = ShowAsImage | Fetch(format: Format)

  /** The extension tests, in the source's order: `.svg`, `.html`, `.md`, `.excalidraw`, anything else. */
  function DispatchOf(path: string): Dispatch {
    if EndsWith(path, ".svg") then ShowAsImage
    else if EndsWith(path, ".html") then Fetch(HtmlExport)
    else if EndsWith(path, ".md") then Fetch(MarkdownNote)
    else if EndsWith(path, ".excalidraw") then Fetch(ExcalidrawFile)
    else Fetch(PlainJson)
  }

  /** `path.endsWith(ext)` is decided by the last character of `ext` when it differs. */
  lemma EndsWithLast(path: string, ext: string)
    requires |ext| > 0 && EndsWith(path, ext)
    ensures path[|path| - 1] == ext[|ext| - 1]
  {
    assert path[|path| - |ext|..][|ext| - 1] == path[|path| - 1];
  }

  /**
   * The extensions end in different letters, so at most one test can succeed and the order of
   * the tests never changes the outcome: each format is chosen exactly when its extension ends the path.
   */
  lemma DispatchByExtension(path: string)
    ensures DispatchOf(path) == ShowAsImage <==> EndsWith(path, ".svg")
    ensures DispatchOf(path) == Fetch(HtmlExport) <==> EndsWith(path, ".html")
    ensures DispatchOf(path) == Fetch(MarkdownNote) <==> EndsWith(path, ".md")
    ensures DispatchOf(path) == Fetch(ExcalidrawFile) <==> EndsWith(path, ".excalidraw")
    ensures DispatchOf(path) == Fetch(PlainJson) <==>
      !EndsWith(path, ".svg") && !EndsWith(path, ".html") && !EndsWith(path, ".md") && !EndsWith(path, ".excalidraw")
  {
    if EndsWith(path, ".svg") { EndsWithLast(path, ".svg"); }
    if EndsWith(path, ".html") { EndsWithLast(path, ".html"); }
    if EndsWith(path, ".md") { EndsWithLast(path, ".md"); }
    if EndsWith(path, ".excalidraw") { EndsWithLast(path, ".excalidraw"); }
  }

  /**
   * Reading fetched text in a given format. A `.excalidraw` file goes to the HTML reader exactly
   * when its first character that is not white space is `<`, and is parsed as JSON otherwise.
   */
  function ReadContent(format: Format, text: string, host: Host): (r: Result<JsValue, Failure>)
    ensures format == HtmlExport ==> r == ExtractFromHtml(text, host)
    ensures format == MarkdownNote ==> r == ExtractFromMarkdown(text, host)
    ensures format == ExcalidrawFile ==>
      r == if exists i: nat :: MarkupStartsAt(text, i) then ExtractFromHtml(text, host) else ParseJson(text, host)
    ensures format == PlainJson ==> r == ParseJson(text, host)
  {
    LooksLikeMarkupIff(text);
    match format
    case HtmlExport => ExtractFromHtml(text, host)
    case MarkdownNote => ExtractFromMarkdown(text, host)
    case ExcalidrawFile => if LooksLikeMarkup(text) then ExtractFromHtml(text, host) else ParseJson(text, host)
    case PlainJson => ParseJson(text, host)
  }
}

=== FILE: js_strings.dfy ===
/**
 * The JavaScript string operations the renderer relies on, over `string` = `seq<char>`:
 * `startsWith`, `endsWith`, `trim`, `split` and `join` on a one-character separator, and the
 * truthiness test `!s` applied to a string that may be `null`. `LastIndexOf` is not called by
 * the renderer; it is the reference that states what the split, slice and join of a path give.
 */
module JsStrings {
  import opened Wrappers

  /** `s.startsWith(p)` */
  predicate StartsWith(s: string, p: string) {
    |p| <= |s| && s[..|p|] == p
  }

  /** A string that starts with `p` starts with the first character of `p`. */
  lemma StartsWithFirst(s: string, p: string)
    requires |p| > 0 && StartsWith(s, p)
    ensures s[0] == p[0]
  {
    assert s[..|p|][0] == s[0];
  }

  /** `s.endsWith(p)` */
  predicate EndsWith(s: string, p: string) {
    |p| <= |s| && s[|s| - |p|..] == p
  }

  /** A string-or-null is truthy when it is present and not empty. */
  predicate Truthy(o: Option<string>) {
    o.Some? && o.value != ""
  }

  /** The characters `String.prototype.trim` removes: ECMAScript WhiteSpace and LineTerminator. */
  predicate IsWhitespace(c: char) {
    c == '\t' || c == '\n' || c == '\U{B}' || c == '\U{C}' || c == '\r' || c == ' '
    || c == '\U{A0}' || c == '\U{1680}' || ('\U{2000}' <= c <= '\U{200A}')
    || c == '\U{2028}' || c == '\U{2029}' || c == '\U{202F}' || c == '\U{205F}'
    || c == '\U{3000}' || c == '\U{FEFF}'
  }

  /** Where `trim` stops at the front: the first position at or after `i` not holding white space, or `|s|`. */
  function SkipForward(s: string, i: nat): (n: nat)
    requires i <= |s|
    ensures i <= n <= |s|
    ensures forall k :: i <= k < n ==> IsWhitespace(s[k])
    ensures n < |s| ==> !IsWhitespace(s[n])
    decreases |s| - i
  {
    if i < |s| && IsWhitespace(s[i]) then SkipForward(s, i + 1) else i
  }

  /** Where `trim` stops at the back: one past the last position below `j`, and not below `lo`, not holding white space. */
  function SkipBackward(s: string, lo: nat, j: nat): (n: nat)
    requires lo <= j <= |s|
    ensures lo <= n <= j
    ensures forall k :: n <= k < j ==> IsWhitespace(s[k])
    ensures n > lo ==> !IsWhitespace(s[n - 1])
  {
    if j > lo && IsWhitespace(s[j - 1]) then SkipBackward(s, lo, j - 1) else j
  }

  /** `s.trim()`: the text between the white space at the front and the white space at the back. */
  function Trim(s: string): (r: string)
    ensures r == [] || (!IsWhitespace(r[0]) && !IsWhitespace(r[|r| - 1]))
  {
    var i := SkipForward(s, 0);
    var j := SkipBackward(s, i, |s|);
    assert j > i ==> s[i..j][0] == s[i] && s[i..j][j - i - 1] == s[j - 1];
    s[i..j]
  }

  /** `trim()` keeps a middle slice of `s` and removes only white space on either side of it. */
  lemma TrimKeepsMiddle(s: string)
    ensures exists i, j ::
              && 0 <= i <= j <= |s| && Trim(s) == s[i..j]
              && (forall k :: 0 <= k < i ==> IsWhitespace(s[k]))
              && (forall k :: j <= k < |s| ==> IsWhitespace(s[k]))
  {
    var i := SkipForward(s, 0);
    var j := SkipBackward(s, i, |s|);
    assert Trim(s) == s[i..j];
  }

  /** `text.trim().startsWith('<')`: the first character that is not white space is `<`. */
  predicate LooksLikeMarkup(text: string) {
    StartsWith(Trim(text), "<")
  }

  /** Position `i` of `text` holds a `<` preceded only by white space. */
  predicate MarkupStartsAt(text: string, i: nat) {
    i < |text| && text[i] == '<' && forall k :: 0 <= k < i ==> IsWhitespace(text[k])
  }

  /** The sniffing test, stated without `trim`: some `<` is preceded only by white space. */
  lemma LooksLikeMarkupIff(text: string)
    ensures LooksLikeMarkup(text) <==> exists i: nat :: MarkupStartsAt(text, i)
  {
    var i := SkipForward(text, 0);
    var j := SkipBackward(text, i, |text|);
    assert Trim(text) == text[i..j];
    if LooksLikeMarkup(text) {
      assert text[i..j][0] == text[i];
      assert MarkupStartsAt(text, i);
    }
    if exists m: nat :: MarkupStartsAt(text, m) {
      var m: nat :| MarkupStartsAt(text, m);
      assert !IsWhitespace(text[m]);
      assert i == m;
      assert j > i;
      assert text[i..j][..1] == [text[i]];
    }
  }

  /** `s.lastIndexOf(c)`: the position of the last `c` in `s`, or -1. */
  function LastIndexOf(s: string, c: char): (r: int)
    ensures -1 <= r < |s|
    ensures r == -1 <==> c !in s
    ensures r >= 0 ==> s[r] == c && forall k :: r < k < |s| ==> s[k] != c
  {
    if |s| == 0 then -1
    else if s[|s| - 1] == c then |s| - 1
    else
      assert forall k :: 0 <= k < |s| - 1 ==> s[..|s| - 1][k] == s[k];
      LastIndexOf(s[..|s| - 1], c)
  }

  /** The last `c` in `s` is the one at `j` when none follows it. */
  lemma LastIndexOfAt(s: string, c: char, j: nat)
    requires j < |s| && s[j] == c
    requires forall k :: j < k < |s| ==> s[k] != c
    ensures LastIndexOf(s, c) == j
  {
    var i := LastIndexOf(s, c);
    assert c in s;
    assert i >= j;
  }

  /** `s.split(sep)` for a one-character separator: never empty, no part holds `sep`. */
  function Split(s: string, sep: char): (parts: seq<string>)
    ensures |parts| >= 1
    ensures forall i :: 0 <= i < |parts| ==> sep !in parts[i]
  {
    if s == [] then [[]]
    else
      var rest := Split(s[1..], sep);
      if s[0] == sep then [[]] + rest
      else [[s[0]] + rest[0]] + rest[1..]
  }

  /** `parts.join(sep)` */
  function Join(parts: seq<string>, sep: char): string {
    if |parts| == 0 then []
    else if |parts| == 1 then parts[0]
    else parts[0] + [sep] + Join(parts[1..], sep)
  }

  /** Splitting and joining on the same separator gives the string back. */
  lemma {:induction false} JoinSplit(s: string, sep: char)
    ensures Join(Split(s, sep), sep) == s
  {
    if s != [] {
      JoinSplit(s[1..], sep);
      var rest := Split(s[1..], sep);
      if s[0] != sep {
        if |rest| > 1 {
          assert Join([[s[0]] + rest[0]] + rest[1..], sep)
              == [s[0]] + rest[0] + [sep] + Join(rest[1..], sep);
        }
      } else {
        assert ([[]] + rest)[1..] == rest;
      }
    }
  }

  /** A string without the separator splits into itself. */
  lemma {:induction false} SplitWithoutSeparator(s: string, sep: char)
    requires sep !in s
    ensures Split(s, sep) == [s]
  {
    if s != [] {
      assert s[0] != sep && sep !in s[1..];
      SplitWithoutSeparator(s[1..], sep);
      assert [s[0]] + s[1..] == s;
    }
  }

  /** Splitting at one separator splits both sides, with the last part of `a` closed off. */
  lemma {:induction false} SplitAtSeparator(a: string, b: string, sep: char)
    ensures Split(a + [sep] + b, sep) == Split(a, sep) + Split(b, sep)
  {
    var s := a + [sep] + b;
    if a == [] {
      assert s[0] == sep && s[1..] == b;
    } else {
      assert s[0] == a[0] && s[1..] == a[1..] + [sep] + b;
      SplitAtSeparator(a[1..], b, sep);
    }
  }
}

=== FILE: loader.dfy ===
/**
 * `ExcalidrawLoader`: loads the Excalidraw library once per page. Its static fields `loaded`,
 * `loading` and `loadPromise` are the fields of one `ExcalidrawLoader` object here. Promise
 * settlement is a separate step, `Settle`, taken when the awaited `loadLibrary` run ends.
 */
module Loader {
  import opened Wrappers
  import opened Failures

  const ExcalidrawScriptUrl: string :=
    "https://cdn.jsdelivr.net/npm/@excalidraw/excalidraw@0.18.0/dist/umd/excalidraw.min.js"
  const ExcalidrawStylesheetUrl: string :=
    "https://cdn.jsdelivr.net/npm/@excalidraw/excalidraw@0.18.0/dist/excalidraw.min.css"

  /** A tag `loadLibrary` asks the page to load. */
  datatype Asset = Stylesheet(url: string) | Script(url: string)

  const ExcalidrawStylesheet: Asset := Stylesheet(ExcalidrawStylesheetUrl)
  const ExcalidrawScript: Asset := Script(ExcalidrawScriptUrl)

  /**
   * One run of `loadLibrary`: the tags it appended to the page, in order, the error it rejects
   * with, and the tags in the page afterwards.
   */
  datatype LibraryRun = LibraryRun(requested: seq<Asset>, error: Option<Failure>, page: set<Asset>)

  /** `loadStylesheet(url)` or `loadScript(url)` for one asset: the tags appended, whether it resolved, and the page after. */
  datatype AssetLoad = AssetLoad(requested: seq<Asset>, ok: bool, page: set<Asset>)

  /**
   * One asset, given the tags already in `page` and whether a new tag for it loads. A tag that
   * is already in the page, found by `querySelector`, resolves at once. Otherwise a new tag is
   * appended; `removeFailedTag` says whether a tag that fails is taken out of the page again.
   */
  function LoadAsset(page: set<Asset>, asset: Asset, loads: bool, removeFailedTag: bool): AssetLoad {
    if asset in page then AssetLoad([], true, page)
    else if loads then AssetLoad([asset], true, page + {asset})
    else AssetLoad([asset], false, if removeFailedTag then page else page + {asset})
  }

  /**
   * `loadLibrary`: the stylesheet is awaited first; the script is asked for only once the
   * stylesheet has resolved. A tag already in the page is not asked for again. Each failure
   * rejects with its own error. This holds whether or not a failed tag is removed.
   */
  function RunLibrary(page: set<Asset>, stylesheetLoads: bool, scriptLoads: bool, removeFailedTag: bool): (run: LibraryRun)
    ensures var cssReady := ExcalidrawStylesheet in page || stylesheetLoads;
            var jsReady := ExcalidrawScript in page || scriptLoads;
            && run.requested ==
                 (if ExcalidrawStylesheet in page then [] else [ExcalidrawStylesheet])
                 + (if cssReady && ExcalidrawScript !in page then [ExcalidrawScript] else [])
            && (run.error.None? <==> cssReady && jsReady)
            && (!cssReady ==> run.error == Some(StylesheetFailed(ExcalidrawStylesheetUrl)))
            && (cssReady && !jsReady ==> run.error == Some(ScriptFailed(ExcalidrawScriptUrl)))
  {
    var css := LoadAsset(page, ExcalidrawStylesheet, stylesheetLoads, removeFailedTag);
    if !css.ok then LibraryRun(css.requested, Some(StylesheetFailed(ExcalidrawStylesheetUrl)), css.page)
    else
      var js := LoadAsset(css.page, ExcalidrawScript, scriptLoads, removeFailedTag);
      LibraryRun(css.requested + js.requested,
                 if js.ok then None else Some(ScriptFailed(ExcalidrawScriptUrl)), js.page)
  }

  /**
   * `loadLibrary` as written: a tag whose load failed stays in the page, so the next run finds
   * it and takes the asset for loaded. Its order and errors are those of `RunLibrary`.
   */
  function LoadLibraryAsWritten(page: set<Asset>, stylesheetLoads: bool, scriptLoads: bool): (run: LibraryRun)
    ensures run.page == page + (set a | a in run.requested)
    ensures run.error.None? <==>
      (ExcalidrawStylesheet in page || stylesheetLoads) && (ExcalidrawScript in page || scriptLoads)
  {
    RunLibrary(page, stylesheetLoads, scriptLoads, false)
  }

  /**
   * `loadLibrary` with a failed tag taken out of the page again, so that only tags that loaded
   * stay. A loader built with `removeFailedTag` runs this one.
   */
  function LoadLibrary(page: set<Asset>, stylesheetLoads: bool, scriptLoads: bool): (run: LibraryRun)
    ensures var cssReady := ExcalidrawStylesheet in page || stylesheetLoads;
            var jsReady := ExcalidrawScript in page || scriptLoads;
            && run.requested ==
                 (if ExcalidrawStylesheet in page then [] else [ExcalidrawStylesheet])
                 + (if cssReady && ExcalidrawScript !in page then [ExcalidrawScript] else [])
            && (run.error.None? <==> cssReady && jsReady)
            && (!cssReady ==> run.error == Some(StylesheetFailed(ExcalidrawStylesheetUrl)))
            && (cssReady && !jsReady ==> run.error == Some(ScriptFailed(ExcalidrawScriptUrl)))
            && run.page == page + (if !cssReady then {} else if !jsReady then {ExcalidrawStylesheet}
                                   else {ExcalidrawStylesheet, ExcalidrawScript})
  {
    RunLibrary(page, stylesheetLoads, scriptLoads, true)
  }

  /**
   * As written, once the script tag has failed, every later run resolves at once without asking
   * for anything: the library counts as loaded although its script never ran.
   */
  lemma FailedScriptTagMasksRetry(page: set<Asset>, stylesheetLoads: bool,
                                  retryStylesheetLoads: bool, retryScriptLoads: bool)
    requires LoadLibraryAsWritten(page, stylesheetLoads, false).error == Some(ScriptFailed(ExcalidrawScriptUrl))
    ensures var first := LoadLibraryAsWritten(page, stylesheetLoads, false);
            LoadLibraryAsWritten(first.page, retryStylesheetLoads, retryScriptLoads) == LibraryRun([], None, first.page)
  {
  }

  /**
   * With the failed tag removed, the run after a script failure asks for the script again, and
   * succeeds exactly when the script then loads.
   */
  lemma RetryRequestsFailedScript(page: set<Asset>, stylesheetLoads: bool,
                                  retryStylesheetLoads: bool, retryScriptLoads: bool)
    requires LoadLibrary(page, stylesheetLoads, false).error == Some(ScriptFailed(ExcalidrawScriptUrl))
    ensures var first := LoadLibrary(page, stylesheetLoads, false);
            var retry := LoadLibrary(first.page, retryStylesheetLoads, retryScriptLoads);
            && retry.requested == [ExcalidrawScript]
            && (retry.error.None? <==> retryScriptLoads)
  {
  }

  /** What a call of `load()` does at once: return, join the run in flight, or start a new run. */
  datatype LoadCall = AlreadyLoaded | Joined(promise: nat) | Started(promise: nat)

  class ExcalidrawLoader {
    var loaded: bool
    var loading: bool
    /** The promise of the latest `loadLibrary` run, named by the run's number; `None` is null. */
    var loadPromise: Option<nat>
    /** How many times `loadLibrary` has been started. */
    var libraryRuns: nat
    /** The stylesheet and script tags in the document. */
    var page: set<Asset>
    /** Whether the library's script has run in the page, which is what defines the global `Excalidraw`. */
    var scriptRan: bool
    /** Whether a tag that fails to load is removed again: false is the code as written. */
    const removeFailedTag: bool

    ghost predicate Valid()
      reads this
    {
      && (loadPromise.None? <==> libraryRuns == 0)
      && (loadPromise.Some? ==> loadPromise.value == libraryRuns)
      && (loading ==> loadPromise.Some? && !loaded)
      && (loaded ==> libraryRuns > 0 && ExcalidrawStylesheet in page && ExcalidrawScript in page)
      && (removeFailedTag ==> (ExcalidrawScript in page ==> scriptRan))
    }

    /**
     * The static initialisers: not loaded, not loading, no promise. `page` holds the document's
     * tags, and a script tag already there is taken to have run.
     */
    constructor (page: set<Asset>, removeFailedTag: bool)
      ensures Valid()
      ensures !loaded && !loading && loadPromise == None && libraryRuns == 0
      ensures this.page == page && scriptRan == (ExcalidrawScript in page)
      ensures this.removeFailedTag == removeFailedTag
    {
      loaded, loading, loadPromise, libraryRuns := false, false, None, 0;
      this.page, scriptRan := page, ExcalidrawScript in page;
      this.removeFailedTag := removeFailedTag;
    }

    /**
     * The synchronous part of `load()`, up to its `await`. A loaded library returns at once; a
     * run in flight is joined and its promise returned; otherwise a new run starts and `loading`
     * is set. `loadLibrary` is therefore started only when no run is in flight.
     */
    method Load() returns (call: LoadCall)
      requires Valid()
      modifies this
      ensures Valid()
      ensures old(loaded) ==> loaded
      ensures old(loaded) ==> call == AlreadyLoaded && unchanged(this)
      ensures !old(loaded) && old(loading) ==> call == Joined(old(loadPromise).value) && unchanged(this)
      ensures !old(loaded) && !old(loading) ==>
        && call == Started(old(libraryRuns) + 1)
        && libraryRuns == old(libraryRuns) + 1
        && loadPromise == Some(libraryRuns)
        && loading && !loaded && page == old(page) && scriptRan == old(scriptRan)
    {
      if loaded {
        return AlreadyLoaded;
      }
      if loading && loadPromise.Some? {
        return Joined(loadPromise.value);
      }
      loading := true;
      libraryRuns := libraryRuns + 1;
      loadPromise := Some(libraryRuns);
      call := Started(libraryRuns);
    }

    /**
     * The rest of `load()`, once the awaited run has ended: the run's tags are in the page; on
     * success `loaded` is set; either way the `finally` clears `loading`; a failure is re-thrown.
     * `loadPromise` is kept, but with `loading` false the next `load()` starts a fresh run.
     * Whether each new tag loads is given by `stylesheetLoads` and `scriptLoads`.
     */
    method Settle(stylesheetLoads: bool, scriptLoads: bool) returns (error: Option<Failure>)
      requires Valid() && loading
      modifies this
      ensures Valid()
      ensures old(loaded) ==> loaded
      ensures var run := RunLibrary(old(page), stylesheetLoads, scriptLoads, removeFailedTag);
              && page == run.page && error == run.error
              && loaded == run.error.None? && !loading
              && scriptRan == (old(scriptRan) || (ExcalidrawScript in run.requested && run.error.None?))
      ensures loadPromise == old(loadPromise) && libraryRuns == old(libraryRuns)
    {
      var run := RunLibrary(page, stylesheetLoads, scriptLoads, removeFailedTag);
      page := run.page;
      scriptRan := scriptRan || (ExcalidrawScript in run.requested && run.error.None?);
      if run.error.None? {
        loaded := true;
      }
      loading := false;
      error := run.error;
    }

    /** `isLoaded()`: the flag is set and the page defines the global `Excalidraw`. */
    function IsLoaded(excalidrawDefined: bool): bool
      reads this
    {
      loaded && excalidrawDefined
    }
  }

  /**
   * `isLoaded()` can hold only once a `loadLibrary` run has been started and none is in flight;
   * the promise kept is that of the latest run, and both tags of the library are in the page.
   * Only when failed tags are removed does that mean the library's script has run.
   */
  lemma IsLoadedAfterRun(l: ExcalidrawLoader, excalidrawDefined: bool)
    requires l.Valid()
    ensures l.IsLoaded(excalidrawDefined) ==>
      && l.libraryRuns >= 1 && !l.loading && l.loadPromise == Some(l.libraryRuns)
      && ExcalidrawStylesheet in l.page && ExcalidrawScript in l.page
      && (l.removeFailedTag ==> l.scriptRan)
  {
  }

  /**
   * From any page state where the library is not loaded: `load()` starts a run or joins the one
   * in flight; when that run fails its error is re-thrown and the next `load()` starts a fresh
   * run, numbered one past the failed one; when it succeeds the next `load()` returns at once.
   */
  method RetryFromAnyState(loader: ExcalidrawLoader, stylesheetLoads: bool, scriptLoads: bool)
    returns (first: LoadCall, failure: Option<Failure>, next: LoadCall)
    requires loader.Valid() && !loader.loaded
    modifies loader
    ensures loader.Valid()
    ensures first == if old(loader.loading) then Joined(old(loader.libraryRuns))
                     else Started(old(loader.libraryRuns) + 1)
    ensures failure == RunLibrary(old(loader.page), stylesheetLoads, scriptLoads, loader.removeFailedTag).error
    ensures failure.Some? ==> next == Started(first.promise + 1) && loader.loading && !loader.loaded
    ensures failure.None? ==> next == AlreadyLoaded && loader.loaded && !loader.loading
  {
    first := loader.Load();
    failure := loader.Settle(stylesheetLoads, scriptLoads);
    next := loader.Load();
  }

  /**
   * The code as written, from a page where the library's script has not run and its tag is
   * absent: the first `load()` starts a run whose script fails; the retried `load()` starts
   * the next run, which finds the dead tag and resolves whatever the network does; `loaded` is
   * then set for good, so every later `load()` returns at once, though the script never ran.
   */
  method DeadScriptTagLocksOut(loader: ExcalidrawLoader, stylesheetLoads: bool,
                               retryStylesheetLoads: bool, retryScriptLoads: bool)
    returns (first: LoadCall, failure: Option<Failure>, retry: LoadCall, retryError: Option<Failure>, last: LoadCall)
    requires loader.Valid() && !loader.removeFailedTag && !loader.loaded && !loader.loading
    requires ExcalidrawScript !in loader.page && !loader.scriptRan
    requires ExcalidrawStylesheet in loader.page || stylesheetLoads
    modifies loader
    ensures loader.Valid()
    ensures first == Started(old(loader.libraryRuns) + 1)
    ensures failure == Some(ScriptFailed(ExcalidrawScriptUrl))
    ensures retry == Started(old(loader.libraryRuns) + 2) && retryError.None?
    ensures last == AlreadyLoaded && loader.loaded && !loader.scriptRan
  {
    first := loader.Load();
    failure := loader.Settle(stylesheetLoads, false);
    retry := loader.Load();
    retryError := loader.Settle(retryStylesheetLoads, retryScriptLoads);
    last := loader.Load();
  }

  /**
   * A page's life with failed tags removed, starting with neither tag in the document: a second
   * `load()` during the first run joins it instead of starting another; the script fails to
   * load; a new `load()` starts a fresh run that asks for the script again; once that succeeds,
   * the script has run and `load()` returns at once.
   */
  method RetryAfterFailure()
    returns (first: LoadCall, second: LoadCall, failure: Option<Failure>, retry: LoadCall, last: LoadCall, runs: nat)
    ensures first == Started(1) && second == Joined(1)
    ensures failure == Some(ScriptFailed(ExcalidrawScriptUrl))
    ensures retry == Started(2) && last == AlreadyLoaded && runs == 2
  {
    var loader := new ExcalidrawLoader({}, true);
    first := loader.Load();
    second := loader.Load();
    failure := loader.Settle(true, false);
    retry := loader.Load();
    var error := loader.Settle(true, true);
    last := loader.Load();
    runs := loader.libraryRuns;
  }
}

=== FILE: paths.dfy ===
/**
 * `ExcalidrawRenderer.resolvePath`: how the source attribute of an embed becomes the path
 * that is fetched, relative to the directory of the current document.
 */
module Paths {
  import opened Wrappers
  import opened JsStrings
  import opened Failures

  /** `pathname.split('/').slice(0, -1).join('/')`: the document's path without its last segment. */
  function BasePath(pathname: string): string {
    var parts := Split(pathname, '/');
    Join(parts[..|parts| - 1], '/')
  }

  /** The base path is everything before the last `/`, and empty when there is none. */
  lemma BasePathIsDirectory(pathname: string)
    ensures var i := LastIndexOf(pathname, '/');
            BasePath(pathname) == if i < 0 then "" else pathname[..i]
  {
    var i := LastIndexOf(pathname, '/');
    if i < 0 {
      SplitWithoutSeparator(pathname, '/');
    } else {
      var dir, file := pathname[..i], pathname[i + 1..];
      assert pathname == dir + ['/'] + file;
      assert '/' !in file by {
        forall k | 0 <= k < |file| ensures file[k] != '/' {
          assert file[k] == pathname[i + 1 + k];
        }
      }
      SplitAtSeparator(dir, file, '/');
      SplitWithoutSeparator(file, '/');
      var parts := Split(pathname, '/');
      assert parts[..|parts| - 1] == Split(dir, '/');
      JoinSplit(dir, '/');
    }
  }

  /** `s.substring(1)` */
  function DropFirst(s: string): string {
    if |s| == 0 then s else s[1..]
  }

  predicate IsAbsoluteUrl(src: string) {
    StartsWith(src, "http://") || StartsWith(src, "https://")
  }

  predicate IsDotRelative(src: string) {
    StartsWith(src, "./") || StartsWith(src, "../")
  }

  /** A source that is none of: an absolute URL, a blob URL, `./` or `../` relative, root-relative. */
  predicate IsBare(src: string) {
    !IsAbsoluteUrl(src) && !StartsWith(src, "blob:") && !IsDotRelative(src) && !StartsWith(src, "/")
  }

  /** The base URL handed to the URL constructor: the origin and the document's directory. */
  function DirectoryUrl(origin: string, basePath: string): string {
    origin + "/" + (if basePath != "" then basePath + "/" else "")
  }

  /**
   * `resolvePath(src)` for a document at `pathname` on `origin`. `urlPathname(src, base)` is the
   * `pathname` of `new URL(src, base)`, the browser's URL parser, which is not modelled; it is
   * `Err(message)` when the constructor throws a TypeError, as it does for an invalid base such
   * as the one an opaque origin (`"null"`) gives.
   */
  function ResolvePath(src: string, pathname: string, origin: string,
                       urlPathname: (string, string) -> Result<string, string>): (r: Result<string, Failure>)
    ensures r.Err? <==>
      || StartsWith(src, "blob:")
      || (IsDotRelative(src) && urlPathname(src, DirectoryUrl(origin, BasePath(pathname))).Err?)
    ensures StartsWith(src, "blob:") ==> r == Err(BlobUrl)
    ensures IsAbsoluteUrl(src) ==> r == Ok(src)
    ensures StartsWith(src, "/") ==> r.Ok? && src == "/" + r.value
    ensures IsDotRelative(src) ==>
      var u := urlPathname(src, DirectoryUrl(origin, BasePath(pathname)));
      && (u.Ok? ==> r == Ok(DropFirst(u.value)))
      && (u.Err? ==> r == Err(UrlTypeError(u.error)))
  {
    SchemesDiffer(src);
    if IsAbsoluteUrl(src) then Ok(src)
    else if StartsWith(src, "blob:") then Err(BlobUrl)
    else
      var basePath := BasePath(pathname);
      if IsDotRelative(src) then
        match urlPathname(src, DirectoryUrl(origin, basePath))
        case Ok(p) => Ok(DropFirst(p))
        case Err(message) => Err(UrlTypeError(message))
      else if StartsWith(src, "/") then Ok(src[1..])
      else if basePath != "" then Ok(basePath + "/" + src)
      else Ok(src)
  }

  /** The prefixes `resolvePath` tests begin with different characters, so at most one family applies. */
  lemma SchemesDiffer(src: string)
    ensures IsAbsoluteUrl(src) ==> src[0] == 'h'
    ensures StartsWith(src, "blob:") ==> src[0] == 'b'
    ensures IsDotRelative(src) ==> src[0] == '.'
    ensures StartsWith(src, "/") ==> src[0] == '/'
  {
    if StartsWith(src, "http://") { StartsWithFirst(src, "http://"); }
    if StartsWith(src, "https://") { StartsWithFirst(src, "https://"); }
    if StartsWith(src, "blob:") { StartsWithFirst(src, "blob:"); }
    if StartsWith(src, "./") { StartsWithFirst(src, "./"); }
    if StartsWith(src, "../") { StartsWithFirst(src, "../"); }
    if StartsWith(src, "/") { StartsWithFirst(src, "/"); }
  }

  /** Joining a base path and a name without `/` gives a path whose directory is that base and whose last segment is the name. */
  lemma SegmentAfterBase(base: string, name: string)
    requires base != "" && '/' !in name
    ensures var p := base + "/" + name;
            BasePath(p) == base && p[LastIndexOf(p, '/') + 1..] == name
  {
    var p := base + "/" + name;
    BasePathIsDirectory(p);
    var j := |base|;
    assert p[j] == '/';
    forall k | j < k < |p| ensures p[k] != '/' {
      assert p[k] == name[k - j - 1];
    }
    LastIndexOfAt(p, '/', j);
    assert p[..j] == base;
    assert p[j + 1..] == name;
  }

  /**
   * A bare source is joined to the document's base path, or kept as it is when that is empty;
   * a bare file name then lands in the same directory as the document, as its last segment.
   */
  lemma ResolveBareBesideDocument(src: string, pathname: string, origin: string,
                                  urlPathname: (string, string) -> Result<string, string>)
    requires IsBare(src)
    ensures var r := ResolvePath(src, pathname, origin, urlPathname);
            && r.Ok?
            && (BasePath(pathname) == "" ==> r.value == src)
            && (BasePath(pathname) != "" ==> r.value == BasePath(pathname) + "/" + src)
            && ('/' !in src ==>
                  && BasePath(r.value) == BasePath(pathname)
                  && r.value[LastIndexOf(r.value, '/') + 1..] == src)
  {
    var base := BasePath(pathname);
    var r := ResolvePath(src, pathname, origin, urlPathname);
    assert r == Ok(if base != "" then base + "/" + src else src);
    if '/' !in src {
      if base == "" {
        BasePathIsDirectory(src);
        assert LastIndexOf(src, '/') == -1;
      } else {
        SegmentAfterBase(base, src);
      }
    }
  }

  /** The URL constructor is always given a directory URL, one that ends in `/`. */
  lemma DirectoryUrlEndsWithSlash(origin: string, pathname: string)
    ensures var u := DirectoryUrl(origin, BasePath(pathname));
            StartsWith(u, origin + "/") && EndsWith(u, "/")
  {
  }
}

=== FILE: renderer.dfy ===
/**
 * `ExcalidrawRenderer`: for one embed container, find the drawing, read it, and show it as an
 * image, as an inline SVG, as a read-only Excalidraw canvas, or as an error panel.
 */
module Renderer {
  import opened Wrappers
  import opened JsStrings
  import opened Failures
  import opened Paths
  import opened Sources
  import opened Formats
  import opened Loader

  const SvgWrapperClass: string := "excalidraw-svg-wrapper"
  const EmbedWrapperClass: string := "excalidraw-embed-wrapper"

  /** What the container element shows. */
  datatype View =
    | Placeholder                // what the export put there
    | SvgImage(path: string)     // an img element whose src is the path
    | InlineSvg(markup: string)  // the SVG markup as the container's innerHTML
    | CanvasHost                 // the empty excalidraw-container element, not yet mounted
    | Canvas(scene: JsValue)     // the mounted read-only Excalidraw component
    | ErrorBox(message: string)  // the error panel of showError

  /** The page's global `Excalidraw`: undefined, defined without an `Excalidraw` component, or usable. */
  datatype ExcalidrawGlobal = Undefined | WithoutComponent | WithComponent

  /** JavaScript truthiness of a parsed value. */
  predicate IsTruthy(v: JsValue) {
    match v
    case JsNull => false
    case JsObject(_) => true
    case JsScalar(_, truthy) => truthy
  }

  /** How `loadExcalidrawData` ends. */
  datatype Loaded =
    | ImageShown(path: string)   // the .svg branch: shown as an image, the data set to null
    | Scene(data: JsValue)       // the data assigned, and it is a scene
    | Invalid(data: JsValue)     // the data assigned, then "Invalid Excalidraw data format" thrown
    | Failed(failure: Failure)   // thrown before the data was assigned

  /** The reference definition of `loadExcalidrawData`, composed of the chain, the resolver and the readers. */
  function LoadOutcome(embed: Embed, pathname: string, origin: string, host: Host, fetched: string): Loaded {
    match ChosenSource(embed)
    case None => Failed(SourceNotFound)
    case Some(src) =>
      match ResolvePath(src, pathname, origin, host.urlPathname)
      case Err(f) => Failed(f)
      case Ok(path) =>
        match DispatchOf(path)
        case ShowAsImage => ImageShown(path)
        case Fetch(format) =>
          match ReadContent(format, fetched, host)
          case Err(f) => Failed(f)
          case Ok(v) => if IsScene(v) then Scene(v) else Invalid(v)
  }

  /** A blob: URL that survives the attribute chain is still never fetched nor shown: resolving it fails. */
  lemma BlobSourceNeverLoaded(embed: Embed, pathname: string, origin: string, host: Host, fetched: string)
    requires ChosenSource(embed).Some? && StartsWith(ChosenSource(embed).value, "blob:")
    ensures LoadOutcome(embed, pathname, origin, host, fetched) == Failed(BlobUrl)
    ensures ChosenSource(embed) in {embed.excalidrawSource, embed.fileSource,
                                    embed.imgExcalidrawSource, embed.imgFileSource}
  {
    BlobOnlyFromUnfilteredAttributes(embed);
  }

  /** An .svg path is shown without reading the file: the outcome does not depend on the fetched text. */
  lemma SvgPathIgnoresContent(embed: Embed, pathname: string, origin: string, host: Host, text1: string, text2: string)
    requires LoadOutcome(embed, pathname, origin, host, text1).ImageShown?
    ensures LoadOutcome(embed, pathname, origin, host, text2) == LoadOutcome(embed, pathname, origin, host, text1)
    ensures EndsWith(LoadOutcome(embed, pathname, origin, host, text1).path, ".svg")
  {
    var path := LoadOutcome(embed, pathname, origin, host, text1).path;
    DispatchByExtension(path);
  }

  /**
   * The `HTML_WITH_SVG:` signal comes only from a file read by the HTML reader (an .html file,
   * or an .md or .excalidraw file whose first character that is not white space is `<`) in
   * which neither JSON pattern parsed, and it carries exactly the SVG match.
   */
  lemma SvgSignalSource(embed: Embed, pathname: string, origin: string, host: Host, fetched: string, svg: string)
    requires LoadOutcome(embed, pathname, origin, host, fetched) == Failed(HtmlWithSvg(svg))
    ensures host.svgElement(fetched) == Some(svg)
    ensures ParseCandidate(host.scriptJson(fetched), host).None?
    ensures ParseCandidate(host.commentJson(fetched), host).None?
    ensures ChosenSource(embed).Some?
    ensures var path := ResolvePath(ChosenSource(embed).value, pathname, origin, host.urlPathname);
            && path.Ok?
            && DispatchOf(path.value).Fetch?
            && DispatchOf(path.value).format != PlainJson
            && (DispatchOf(path.value).format == ExcalidrawFile ==> exists i: nat :: MarkupStartsAt(fetched, i))
            && (DispatchOf(path.value).format == MarkdownNote ==> exists i: nat :: MarkupStartsAt(fetched, i))
  {
    LooksLikeMarkupIff(fetched);
  }

  class ExcalidrawRenderer {
    /** `document.pathname` of the page. */
    const pathname: string
    /** `window.location.origin` of the page. */
    const origin: string
    /** The container's attributes and those of the elements around and inside it. */
    const embed: Embed
    var excalidrawData: JsValue
    var view: View
    var className: string

    constructor (pathname: string, origin: string, embed: Embed, className: string)
      ensures this.pathname == pathname && this.origin == origin && this.embed == embed
      ensures excalidrawData == JsNull && view == Placeholder && this.className == className
    {
      this.pathname, this.origin, this.embed := pathname, origin, embed;
      excalidrawData, view, this.className := JsNull, Placeholder, className;
    }

    /** `loadAsSvgImage`: replace the content with an image of the file and clear the data. */
    method LoadAsSvgImage(path: string)
      modifies this
      ensures view == SvgImage(path) && className == SvgWrapperClass && excalidrawData == JsNull
    {
      view := SvgImage(path);
      className := SvgWrapperClass;
      excalidrawData := JsNull;
    }

    /** `showError`: the error panel replaces the content; the class name is left as it is. */
    method ShowError(message: string)
      modifies this
      ensures view == ErrorBox(message)
      ensures className == old(className) && excalidrawData == old(excalidrawData)
    {
      view := ErrorBox(message);
    }

    /**
     * `loadExcalidrawData`, with `fetched` the text the fetch of the resolved path returns.
     * Returns the error it throws, if any.
     */
    method LoadExcalidrawData(host: Host, fetched: string) returns (error: Option<Failure>)
      modifies this
      ensures var o := LoadOutcome(embed, pathname, origin, host, fetched);
              match o
              case ImageShown(path) =>
                error.None? && excalidrawData == JsNull && view == SvgImage(path) && className == SvgWrapperClass
              case Scene(data) =>
                error.None? && excalidrawData == data && view == old(view) && className == old(className)
              case Invalid(data) =>
                error == Some(InvalidFormat) && excalidrawData == data && view == old(view) && className == old(className)
              case Failed(f) =>
                error == Some(f) && excalidrawData == old(excalidrawData) && view == old(view) && className == old(className)
    {
      var chosen := DiscoverSource(embed);
      if chosen.Err? {
        return Some(chosen.error);
      }
      var resolved := ResolvePath(chosen.value, pathname, origin, host.urlPathname);
      if resolved.Err? {
        return Some(resolved.error);
      }
      var path := resolved.value;
      match DispatchOf(path)
      case ShowAsImage =>
        LoadAsSvgImage(path);
        return None;
      case Fetch(format) =>
        var read := ReadContent(format, fetched, host);
        if read.Err? {
          return Some(read.error);
        }
        excalidrawData := read.value;
        if !IsScene(excalidrawData) {
          return Some(InvalidFormat);
        }
        return None;
    }

    /** `render`'s catch block: the `HTML_WITH_SVG:` signal becomes inline SVG, anything else an error panel. */
    method Catch(f: Failure)
      modifies this
      ensures excalidrawData == old(excalidrawData)
      ensures SvgFromMessage(Message(f)).Some? ==>
        view == InlineSvg(SvgFromMessage(Message(f)).value) && className == SvgWrapperClass
      ensures SvgFromMessage(Message(f)).None? ==>
        view == ErrorBox(Message(f)) && className == old(className)
    {
      var message := Message(f);
      if StartsWith(message, SvgSignalPrefix) {
        view := InlineSvg(message[|SvgSignalPrefix|..]);
        className := SvgWrapperClass;
        return;
      }
      ShowError(message);
    }

    /**
     * `renderExcalidraw`: refuse when the library is not loaded, then put the canvas host in
     * place and mount the component on it, which needs the global's `Excalidraw` component.
     */
    method RenderExcalidraw(loader: ExcalidrawLoader, global: ExcalidrawGlobal) returns (error: Option<Failure>)
      modifies this
      ensures excalidrawData == old(excalidrawData)
      ensures !loader.IsLoaded(global != Undefined) ==>
        error == Some(LibraryNotLoaded) && view == old(view) && className == old(className)
      ensures loader.IsLoaded(global != Undefined) ==> className == EmbedWrapperClass
      ensures loader.IsLoaded(global != Undefined) && global == WithoutComponent ==>
        error == Some(ComponentNotFound) && view == CanvasHost
      ensures loader.IsLoaded(global != Undefined) && global == WithComponent ==>
        error.None? && view == Canvas(excalidrawData)
    {
      if !loader.IsLoaded(global != Undefined) {
        return Some(LibraryNotLoaded);
      }
      view := CanvasHost;
      className := EmbedWrapperClass;
      if global != WithComponent {
        return Some(ComponentNotFound);
      }
      view := Canvas(excalidrawData);
      return None;
    }

    /**
     * The rest of `render` once a scene is in `excalidrawData`: `await ExcalidrawLoader.load()`,
     * then `renderExcalidraw()`; an error of either ends in `Catch`.
     */
    method ShowScene(loader: ExcalidrawLoader, stylesheetLoads: bool, scriptLoads: bool, global: ExcalidrawGlobal)
      requires loader.Valid()
      modifies this, loader
      ensures loader.Valid()
      ensures var run := RunLibrary(old(loader.page), stylesheetLoads, scriptLoads, loader.removeFailedTag);
              var ready := old(loader.loaded) || run.error.None?;
              && excalidrawData == old(excalidrawData)
              && loader.loaded == ready && !loader.loading
              && loader.page == (if old(loader.loaded) then old(loader.page) else run.page)
              && loader.libraryRuns == old(loader.libraryRuns) + (if old(loader.loaded) || old(loader.loading) then 0 else 1)
              && (!ready ==> view == ErrorBox(Message(run.error.value)) && className == old(className))
              && (ready && global == Undefined ==>
                    view == ErrorBox(Message(LibraryNotLoaded)) && className == old(className))
              && (ready && global == WithoutComponent ==>
                    view == ErrorBox(Message(ComponentNotFound)) && className == EmbedWrapperClass)
              && (ready && global == WithComponent ==> view == Canvas(excalidrawData) && className == EmbedWrapperClass)
    {
      var call := loader.Load();
      if !call.AlreadyLoaded? {
        // awaiting the run: the one just started, or the one in flight that this call joined
        var error := loader.Settle(stylesheetLoads, scriptLoads);
        if error.Some? {
          OnlySignalCarriesPrefix(error.value);
          Catch(error.value);
          return;
        }
      }
      var error := RenderExcalidraw(loader, global);
      if error.Some? {
        OnlySignalCarriesPrefix(error.value);
        Catch(error.value);
      }
    }

    /**
     * `render`. The library is loaded only for a scene; the run that a new or joined `load()`
     * awaits is `RunLibrary` over the page's tags, keeping or removing a failed tag as the loader
     * does, with `stylesheetLoads` and `scriptLoads` saying whether a new tag loads. Every error
     * ends in `Catch`.
     */
    method Render(host: Host, fetched: string, loader: ExcalidrawLoader,
                  stylesheetLoads: bool, scriptLoads: bool, global: ExcalidrawGlobal)
      requires loader.Valid()
      modifies this, loader
      ensures loader.Valid()
      ensures var o := LoadOutcome(embed, pathname, origin, host, fetched);
              match o
              case ImageShown(path) =>
                && unchanged(loader) && excalidrawData == JsNull
                && view == SvgImage(path) && className == SvgWrapperClass
              case Failed(f) =>
                && unchanged(loader) && excalidrawData == old(excalidrawData)
                && (SvgFromMessage(Message(f)).Some? ==>
                      view == InlineSvg(SvgFromMessage(Message(f)).value) && className == SvgWrapperClass)
                && (SvgFromMessage(Message(f)).None? ==>
                      view == ErrorBox(Message(f)) && className == old(className))
              case Invalid(data) =>
                && unchanged(loader) && excalidrawData == data
                && view == ErrorBox(Message(InvalidFormat)) && className == old(className)
              case Scene(data) =>
                var run := RunLibrary(old(loader.page), stylesheetLoads, scriptLoads, loader.removeFailedTag);
                var ready := old(loader.loaded) || run.error.None?;
                && excalidrawData == data
                && loader.loaded == ready && !loader.loading
                && loader.page == (if old(loader.loaded) then old(loader.page) else run.page)
                && loader.libraryRuns == old(loader.libraryRuns) + (if old(loader.loaded) || old(loader.loading) then 0 else 1)
                && (!ready ==> view == ErrorBox(Message(run.error.value)) && className == old(className))
                && (ready && global == Undefined ==>
                      view == ErrorBox(Message(LibraryNotLoaded)) && className == old(className))
                && (ready && global == WithoutComponent ==>
                      view == ErrorBox(Message(ComponentNotFound)) && className == EmbedWrapperClass)
                && (ready && global == WithComponent ==> view == Canvas(data) && className == EmbedWrapperClass)
    {
      var error := LoadExcalidrawData(host, fetched);
      if error.Some? {
        if !FromEngine(error.value) {
          OnlySignalCarriesPrefix(error.value);
        }
        Catch(error.value);
        return;
      }
      if !IsTruthy(excalidrawData) {
        return;
      }
      ShowScene(loader, stylesheetLoads, scriptLoads, global);
    }
  }

  /**
   * `render` of a scene three times on a page as written, where the library's script fails the
   * first time and the global `Excalidraw` is therefore never defined: the first render shows
   * the script's error; the second starts a run that finds the dead tag, takes the library for
   * loaded, and shows "Excalidraw library not loaded"; so does the third, even once the network
   * works, and it starts no run.
   */
  method ScriptFailureLocksOut(r: ExcalidrawRenderer, loader: ExcalidrawLoader, stylesheetLoads: bool,
                               retryStylesheetLoads: bool, retryScriptLoads: bool)
    returns (firstView: View, secondView: View)
    requires loader.Valid() && !loader.removeFailedTag && !loader.loaded && !loader.loading
    requires ExcalidrawScript !in loader.page
    requires ExcalidrawStylesheet in loader.page || stylesheetLoads
    modifies r, loader
    ensures firstView == ErrorBox(Message(ScriptFailed(ExcalidrawScriptUrl)))
    ensures secondView == ErrorBox(Message(LibraryNotLoaded))
    ensures r.view == ErrorBox(Message(LibraryNotLoaded))
    ensures loader.loaded && loader.libraryRuns == old(loader.libraryRuns) + 2
  {
    r.ShowScene(loader, stylesheetLoads, false, Undefined);
    firstView := r.view;
    r.ShowScene(loader, retryStylesheetLoads, retryScriptLoads, Undefined);
    secondView := r.view;
    r.ShowScene(loader, true, true, Undefined);
  }
}

=== FILE: sources.dfy ===
/**
 * The first half of `ExcalidrawRenderer.loadExcalidrawData`: which attribute of the embed
 * element names the drawing. Six steps are tried in a fixed order; a step that joins two
 * attributes with `||` takes the first non-empty one, and three steps discard a `blob:` URL.
 */
module Sources {
  import opened Wrappers
  import opened JsStrings
  import opened Failures

  /** The attribute values the chain reads, as the page holds them (`None` for null or a missing element). */
  datatype Embed = Embed(
    excalidrawSource: Option<string>,    // data-excalidraw-source of the container
    fileSource: Option<string>,          // filesource of the container
    src: Option<string>,                 // src of the container
    imgExcalidrawSource: Option<string>, // data-excalidraw-source of the first inner img carrying either attribute
    imgFileSource: Option<string>,       // filesource of that img
    embedSrc: Option<string>,            // src of the closest, or else the first inner, .internal-embed
    dataHref: Option<string>,            // data-href of the container
    embedDataHref: Option<string>)       // data-href of the closest .internal-embed

  /** One step of the chain: `a || b || ...` over its candidates, then possibly the blob: filter. */
  datatype Step = Step(candidates: seq<Option<string>>, rejectBlob: bool)

  /** The steps in the order the source tries them. */
  function Steps(e: Embed): seq<Step> {
    [ Step([e.excalidrawSource], false),
      Step([e.fileSource], false),
      Step([e.src], true),
      Step([e.imgExcalidrawSource, e.imgFileSource], false),
      Step([e.embedSrc], true),
      Step([e.dataHref, e.embedDataHref], true) ]
  }

  /** The value of `a || b || ...` when it is truthy: the first non-empty candidate. */
  function FirstTruthy(cs: seq<Option<string>>): (r: Option<string>)
    ensures r.Some? ==> r.value != "" && r in cs
    ensures r.None? <==> forall i :: 0 <= i < |cs| ==> !Truthy(cs[i])
    ensures r.Some? ==> exists i :: 0 <= i < |cs| && cs[i] == r && forall j :: 0 <= j < i ==> !Truthy(cs[j])
  {
    if |cs| == 0 then None
    else if Truthy(cs[0]) then cs[0]
    else
      var r := FirstTruthy(cs[1..]);
      assert r.Some? ==> exists i :: 1 <= i < |cs| && cs[i] == r && forall j :: 1 <= j < i ==> !Truthy(cs[j]) by {
        if r.Some? {
          var i :| 0 <= i < |cs[1..]| && cs[1..][i] == r && forall j :: 0 <= j < i ==> !Truthy(cs[1..][j]);
          assert cs[i + 1] == r;
          assert forall j :: 1 <= j < i + 1 ==> cs[1..][j - 1] == cs[j];
        }
      }
      r
  }

  /** A step with one candidate `a` yields `a` when it is truthy. */
  lemma FirstTruthyOne(a: Option<string>)
    ensures FirstTruthy([a]) == if Truthy(a) then a else None
  {
    assert [a][1..] == [];
  }

  /** A step `a || b` yields `a` when it is truthy, else `b` when that is. */
  lemma FirstTruthyTwo(a: Option<string>, b: Option<string>)
    ensures FirstTruthy([a, b]) == if Truthy(a) then a else if Truthy(b) then b else None
  {
    assert [a, b][1..] == [b];
    FirstTruthyOne(b);
  }

  /** What a step leaves in `src`: its `||` value, unless that is a blob: URL the step discards. */
  function StepValue(s: Step): Option<string> {
    var v := FirstTruthy(s.candidates);
    if v.Some? && s.rejectBlob && StartsWith(v.value, "blob:") then None else v
  }

  /** The value of the first step that leaves a usable source. */
  function FirstAccepted(steps: seq<Step>): Option<string> {
    if |steps| == 0 then None
    else if StepValue(steps[0]).Some? then StepValue(steps[0])
    else FirstAccepted(steps[1..])
  }

  /** The chosen source, if any: the reference definition of the chain. */
  function ChosenSource(e: Embed): Option<string> {
    FirstAccepted(Steps(e))
  }

  /**
   * The chain as the source runs it, reassigning `src` step by step; it ends in the
   * "source not found" error when nothing is left.
   */
  method DiscoverSource(e: Embed) returns (r: Result<string, Failure>)
    ensures ChosenSource(e).Some? ==> r == Ok(ChosenSource(e).value)
    ensures ChosenSource(e).None? ==> r == Err(SourceNotFound)
  {
    ghost var s := Steps(e);
    StepValuesExplicit(e);
    var src := e.excalidrawSource;
    if !Truthy(src) {
      src := e.fileSource;
    }
    assert Truthy(src) <==> StepValue(s[0]).Some? || StepValue(s[1]).Some?;
    assert Truthy(src) ==> src == if StepValue(s[0]).Some? then StepValue(s[0]) else StepValue(s[1]);
    if !Truthy(src) {
      src := e.src;
      if Truthy(src) && StartsWith(src.value, "blob:") {
        src := None;
      }
      assert Truthy(src) <==> StepValue(s[2]).Some?;
      assert Truthy(src) ==> src == StepValue(s[2]);
    }
    if !Truthy(src) {
      src := if Truthy(e.imgExcalidrawSource) then e.imgExcalidrawSource else e.imgFileSource;
      assert Truthy(src) <==> StepValue(s[3]).Some?;
      assert Truthy(src) ==> src == StepValue(s[3]);
    }
    if !Truthy(src) {
      src := e.embedSrc;
      if Truthy(src) && StartsWith(src.value, "blob:") {
        src := None;
      }
      assert Truthy(src) <==> StepValue(s[4]).Some?;
      assert Truthy(src) ==> src == StepValue(s[4]);
    }
    if !Truthy(src) {
      src := if Truthy(e.dataHref) then e.dataHref else e.embedDataHref;
      if Truthy(src) && StartsWith(src.value, "blob:") {
        src := None;
      }
      assert Truthy(src) <==> StepValue(s[5]).Some?;
      assert Truthy(src) ==> src == StepValue(s[5]);
    }
    ChosenSourceUnrolled(e);
    if !Truthy(src) {
      r := Err(SourceNotFound);
    } else {
      r := Ok(src.value);
    }
  }

  /** What each of the six steps yields, written out over the embed's attributes. */
  lemma StepValuesExplicit(e: Embed)
    ensures var s := Steps(e);
            && StepValue(s[0]) == (if Truthy(e.excalidrawSource) then e.excalidrawSource else None)
            && StepValue(s[1]) == (if Truthy(e.fileSource) then e.fileSource else None)
            && StepValue(s[2]) == (if Truthy(e.src) && !StartsWith(e.src.value, "blob:") then e.src else None)
            && StepValue(s[3]) == (if Truthy(e.imgExcalidrawSource) then e.imgExcalidrawSource
                                   else if Truthy(e.imgFileSource) then e.imgFileSource else None)
            && StepValue(s[4]) == (if Truthy(e.embedSrc) && !StartsWith(e.embedSrc.value, "blob:") then e.embedSrc else None)
            && StepValue(s[5]) == (var v := if Truthy(e.dataHref) then e.dataHref else e.embedDataHref;
                                   if Truthy(v) && !StartsWith(v.value, "blob:") then v else None)
  {
    FirstTruthyOne(e.excalidrawSource);
    FirstTruthyOne(e.fileSource);
    FirstTruthyOne(e.src);
    FirstTruthyTwo(e.imgExcalidrawSource, e.imgFileSource);
    FirstTruthyOne(e.embedSrc);
    FirstTruthyTwo(e.dataHref, e.embedDataHref);
  }

  /** The reference definition, unrolled over the six steps. */
  lemma ChosenSourceUnrolled(e: Embed)
    ensures var s := Steps(e);
            ChosenSource(e) ==
              if StepValue(s[0]).Some? then StepValue(s[0])
              else if StepValue(s[1]).Some? then StepValue(s[1])
              else if StepValue(s[2]).Some? then StepValue(s[2])
              else if StepValue(s[3]).Some? then StepValue(s[3])
              else if StepValue(s[4]).Some? then StepValue(s[4])
              else StepValue(s[5])
  {
    var s := Steps(e);
    assert FirstAccepted(s[5..]) == StepValue(s[5]) by {
      assert s[5..][1..] == [];
    }
    assert FirstAccepted(s[4..]) == if StepValue(s[4]).Some? then StepValue(s[4]) else FirstAccepted(s[5..]) by {
      assert s[4..][0] == s[4] && s[4..][1..] == s[5..];
    }
    assert FirstAccepted(s[3..]) == if StepValue(s[3]).Some? then StepValue(s[3]) else FirstAccepted(s[4..]) by {
      assert s[3..][0] == s[3] && s[3..][1..] == s[4..];
    }
    assert FirstAccepted(s[2..]) == if StepValue(s[2]).Some? then StepValue(s[2]) else FirstAccepted(s[3..]) by {
      assert s[2..][0] == s[2] && s[2..][1..] == s[3..];
    }
    assert FirstAccepted(s[1..]) == if StepValue(s[1]).Some? then StepValue(s[1]) else FirstAccepted(s[2..]) by {
      assert s[1..][0] == s[1] && s[1..][1..] == s[2..];
    }
  }

  /** Some step yields `v` and every earlier step yields nothing. */
  ghost predicate EarliestYield(steps: seq<Step>, v: string) {
    exists i :: 0 <= i < |steps| && StepValue(steps[i]) == Some(v)
      && forall j :: 0 <= j < i ==> StepValue(steps[j]).None?
  }

  /** Priority: the chain yields `v` exactly when `v` is the value of the earliest step yielding anything. */
  lemma FirstAcceptedIsEarliest(steps: seq<Step>, v: string)
    ensures FirstAccepted(steps) == Some(v) <==> EarliestYield(steps, v)
  {
    if FirstAccepted(steps) == Some(v) { EarliestFromFirst(steps, v); }
    if EarliestYield(steps, v) { FirstFromEarliest(steps, v); }
  }

  lemma {:induction false} EarliestFromFirst(steps: seq<Step>, v: string)
    requires FirstAccepted(steps) == Some(v)
    ensures EarliestYield(steps, v)
  {
    if StepValue(steps[0]).Some? {
      assert StepValue(steps[0]) == Some(v);
    } else {
      EarliestFromFirst(steps[1..], v);
      var i :| 0 <= i < |steps[1..]| && StepValue(steps[1..][i]) == Some(v)
        && forall j :: 0 <= j < i ==> StepValue(steps[1..][j]).None?;
      assert steps[i + 1] == steps[1..][i];
      assert forall j :: 1 <= j < i + 1 ==> steps[j] == steps[1..][j - 1];
    }
  }

  lemma {:induction false} FirstFromEarliest(steps: seq<Step>, v: string)
    requires EarliestYield(steps, v)
    ensures FirstAccepted(steps) == Some(v)
  {
    var i :| 0 <= i < |steps| && StepValue(steps[i]) == Some(v)
      && forall j :: 0 <= j < i ==> StepValue(steps[j]).None?;
    if i > 0 {
      assert StepValue(steps[0]).None?;
      assert steps[1..][i - 1] == steps[i];
      assert forall j :: 0 <= j < i - 1 ==> steps[1..][j] == steps[j + 1];
      FirstFromEarliest(steps[1..], v);
    }
  }

  /** A chosen source is never empty, and the container's data-excalidraw-source wins whenever it is set. */
  lemma ChosenSourcePriority(e: Embed)
    ensures ChosenSource(e).Some? ==> ChosenSource(e).value != ""
    ensures Truthy(e.excalidrawSource) ==> ChosenSource(e) == e.excalidrawSource
    ensures !Truthy(e.excalidrawSource) && Truthy(e.fileSource) ==> ChosenSource(e) == e.fileSource
  {
    ChosenSourceUnrolled(e);
  }

  /**
   * A blob: URL survives the chain only from the four attributes that are not filtered:
   * the container's and the inner img's data-excalidraw-source and filesource.
   */
  lemma BlobOnlyFromUnfilteredAttributes(e: Embed)
    requires ChosenSource(e).Some? && StartsWith(ChosenSource(e).value, "blob:")
    ensures ChosenSource(e) in {e.excalidrawSource, e.fileSource, e.imgExcalidrawSource, e.imgFileSource}
  {
    ChosenSourceUnrolled(e);
  }

  /**
   * A blob: data-href on the container hides the data-href of the enclosing .internal-embed:
   * `||` picks the container's value before the blob: filter runs, so the later one is never read.
   */
  lemma BlobDataHrefHidesEmbedDataHref(e: Embed)
    requires forall i :: 0 <= i < 5 ==> StepValue(Steps(e)[i]).None?
    requires Truthy(e.dataHref) && StartsWith(e.dataHref.value, "blob:")
    ensures ChosenSource(e).None?
  {
    ChosenSourceUnrolled(e);
  }
}

=== FILE: wrappers.dfy ===
/** Optional values (a JavaScript `null`) and results that may carry a thrown error. */
module Wrappers {

  datatype Option<+T> = None | Some(value: T)

  datatype Result<+T, +E> = Ok(value: T) | Err(error: E)
}
